=== FILE: README.md ===
# Aliment service: a Dafny model of the `/Aliment` routes

The service is a small Koa HTTP server that keeps food items ("aliments":
name, calories, fats, proteins, carbs, plus `version` and `updated`) in an
nedb collection, answers conditional GETs on the collection listing from a
process-wide cache marker `alimentsLastUpdate`, and announces changes over
socket.io.

This project models the five `/Aliment` route handlers of `src/app.js` as a
state machine. The state is the document collection (a sequence in the
store's iteration order) together with the marker. Each handler is a pure
function from state, request and clock reading `now` to response (status,
body, `ETag`, `Last-Modified`), emitted events and next state.

Modules:

- `Wrappers`: `Option`.
- `JsValues`: parsed JSON values, JavaScript truthiness, and the loose
  `!=` the PUT handler uses against the path name.
- `Aliments`: the document shape, the creation guard (every field truthy, so a
  `0` macro counts as missing), and the store's name query.
- `Store`: the store calls the handlers make. These are find all, find one by
  name, insert under a fresh id, replace the first document matching a name,
  and remove by id.
- `Http`: statuses, response bodies, events, `setIssueRes` and `setAlimentRes`.
- `Routes`: the state, the five handlers, `createAliment` and the router.
- `RouteProperties`: what a later request observes after a POST, PUT or DELETE.
- `Server`: a sequence of requests handled one after another.

Behaviour the model makes explicit:

- The marker is tested with JavaScript truthiness, so a marker of `0` reads as
  unset exactly like `null`.
- PUT compares the body name with `!=`. A numeric body name `7` therefore
  passes on path `7`. The replaced document then has a number for a name, and
  the string query `{name: "7"}` no longer finds it
  (`RouteProperties.PutNumericNameHidesRecord`).
- PUT rejects every falsy body name before its create branch, so PUT never
  creates and never moves the marker.
- PUT replaces the whole document with the body. `version` and `updated` are
  whatever the body carries and are not bumped.
- DELETE reads `ctx.params.id`, which the `:name` route never sets. It
  therefore removes nothing, but it still announces a deletion, moves the
  marker and answers 204.
- POST does no duplicate-name check. Which of two same-named documents a GET
  by name returns depends on where the new one lands in the store's scan
  order. That order follows nedb's randomly generated `_id`, so the model
  takes the new document's position as a parameter.
- The store's name query also matches an array-valued name that contains the
  string, at any depth.

## Model

| member | source | states |
|---|---|---|
| JsValues.StringToNumber | src/app.js:82 | string-to-number conversion used by `!=`: defined exactly for digit strings, and `""` is 0 |
| JsValues.NumberMatchesItsSpelling | src/app.js:82 | a numeric body name is loosely equal to its decimal spelling, with or without a leading zero, so it passes the PUT name check |
| Store.FirstNamed | src/app.js:93 | the position found is the first document whose name matches the string (equal to it, or an array holding it); none is found exactly when no document's name matches |
| Store.FindOneByName | src/app.js:59 | `findOne({name})` finds nothing iff no document's name matches; otherwise it returns a stored document whose name matches |
| Store.FreshId | src/app.js:120 | the id given to an inserted document is larger than, hence distinct from, every id in use |
| Store.Insert | src/app.js:120 | insert adds exactly one document with the given fields under an unused id at the chosen scan position; the other documents keep their relative order, every id stays in use, and ids stay unique |
| Store.ReplaceFirstNamed | src/app.js:96 | update replaces only the first document with that name, wholesale, and keeps its id; everything else is unchanged, and nothing changes when no name matches |
| Store.RemoveById | src/app.js:106 | remove keeps exactly the documents whose id differs from the given one; an absent id removes nothing |
| RouteProperties.InitialListing | src/app.js:13-57 | at startup the marker is unset, so no listing is 304; the first listing returns every document and sets the marker to its time, and a later conditional listing is 304 iff the client's time is at least that |
| Routes.ListAliments | src/app.js:45-57 | 304 iff a header is sent, the marker is set, and the marker is no later than the header time; a 304 has no body and changes nothing; otherwise all documents, the marker set to `now` only if unset, `Last-Modified` = marker |
| Routes.GetAliment | src/app.js:58-66 | never changes state; 404 with warning "Aliment not found" iff no document has the name; otherwise 200 with a stored document of that name and its version/update time as headers |
| Routes.CreateAliment | src/app.js:117-124 | exactly one document is inserted, with the body's fields, version 1 and `updated = now`, under an unused id; the others keep their order; the marker becomes `now`; response 201 with that document; one `aliment-created` event |
| Routes.PostAliment | src/app.js:67-76 | 400 "Some field is missing" iff some field is falsy, with state unchanged and no event; otherwise the creation above |
| Routes.PutAliment | src/app.js:77-103 | 400 iff the body name is falsy or loosely differs from the path name, with the matching message; never 201, marker never moves, count and ids kept; 405 "Aliment no longer exists" when no document has the name; otherwise 200 echoing the body, first match replaced by it, one `aliment-updated` event |
| Routes.DeleteAliment | src/app.js:104-110 | always 204 with no body; documents unchanged; marker becomes `now`; one `aliment-deleted` event with an absent id |
| Routes.Handle | src/app.js:44-110 | any request: the status is one of the seven the routes use; a 304/400/404/405 changes nothing and emits nothing; 201 iff a valid POST, and only 201 grows the collection (by one); no id in use is dropped and ids stay unique; the events are exactly those the response announces: the created document for 201, the absent id for 204, the body for PUT's 200, none otherwise |
| RouteProperties.PostThenGet | src/app.js:58-76 | after a valid POST of a new name (a string, or an array holding it), GET by that name returns the created document with version 1 and the creation time |
| RouteProperties.PostDuplicateName | src/app.js:58-76 | POST of an existing name still adds a document; GET by that name then returns the new document iff it landed no later in scan order than the first old match, and that old match otherwise |
| RouteProperties.PutThenGet | src/app.js:77-103 | after PUT with a matching string name, GET returns the document with the body's fields, including the body's version and update time |
| RouteProperties.PutNumericNameHidesRecord | src/app.js:82 | a numeric body name passes the PUT check on its decimal path, and the only document of that name can then no longer be found by it |
| RouteProperties.ListIsIdempotent | src/app.js:45-57 | once the marker is set, a second unconditional listing gives the same response and state |
| RouteProperties.PostThenConditionalList | src/app.js:48 | after a creation at `now`, a conditional listing is 304 iff the client's time is at least `now` |
| RouteProperties.DeleteThenRead | src/app.js:104-110 | after DELETE every GET by name answers as before; a conditional listing is 304 iff the client's time is at least the deletion time |
| RouteProperties.PutNeverCreates | src/app.js:82-91 | PUT never makes a previously absent name findable unless its body names it, and never moves the marker or changes the count |
| Server.Serve | src/app.js:44-110 | over a sequence of requests: only 201s grow the collection, every id in use at the start stays in use, ids stay unique, and the events are, in order, those the successive responses announce |

## Left out

- JsValues.StringToNumber: covers only the empty string and plain decimal digits. Whitespace, signs, fractions, exponents, hex/octal/binary prefixes and `Infinity` are treated as `NaN`. A digit string is given its exact value, whereas JavaScript rounds it to the nearest double, so for path names above 2^53 the PUT name check can reject a numeric body name that the source lets through.
- JsValues.LooseEqualsString: an array's primitive string (its elements joined by commas) is carried beside its elements rather than computed from them, so nothing ties the two together.
- Routes.PutAliment: a body name that is an object (or an array holding one) with its own non-callable `toString` property, such as `{"toString": 1}`, makes the `!=` at src/app.js:82 throw. The source then answers 500 through the error middleware, with state unchanged and no event. The model has no such object value and answers 400 or goes on as for `"[object Object]"`.
- Routes.PutAliment: `setAlimentRes` at src/app.js:128 throws when the body's `version` or `updated` cannot become a header: a string with a character outside tab, `\x20-\x7e` and `\x80-\xff` (such as `"β"`), or an object with its own non-callable `toString`. The update at src/app.js:96 has already replaced the document, so the source answers 500 with the store updated and no `aliment-updated` event. The model has no header-validity check and answers 200 with the event.
- Routes.GetAliment: for the same reason, a stored document whose `version` or `updated` cannot become a header makes GET by its name answer 500 in the source. The model answers 200.
- Routes.Handle: the claim that every status is one of seven does not cover the 500s above, which the source gives for those PUT and GET requests.
- RouteProperties.PutThenGet: for a body `version` or `updated` that cannot become a header, the source's PUT answers 500 after updating, with no event, and the later GET also answers 500. The lemma promises 200 for both.
- Body properties other than the seven aliment fields are not modelled, and neither is a client-supplied `_id`. nedb would keep or reject such an `_id`, and a rejection surfaces as a 500.
- Routes.CreateAliment: nedb refuses to store a document with a key that contains `.` or starts with `$`, at any depth, for example inside an object-valued macro field. Insert at src/app.js:120 and update at src/app.js:96 then fail, and the source answers 500 with no marker change and no event. Object contents are not modelled, so the model answers 201 (POST) or 200 (PUT) for such bodies.
- Store.Insert: nedb's random `_id` is modelled as a deterministic fresh id. The scan position that random id gives the new document is a parameter (`at`), not derived from the id.
- Store.RemoveById removes every document with the id, whereas nedb's default removes at most one. With unique ids these agree.
- Koa middleware is framework plumbing and is not modelled: request logging, the catch-all 500 handler, body parsing, CORS, and the router's default 404/405 for unmatched routes.
- socket.io delivery and connection logging are not modelled. Emitted events are an output list.
- nedb persistence, autoload and failures are not modelled. Concurrent interleaving of handlers is not modelled either: each handler is one atomic step, so the lost-update race between PUT's lookup and write is outside the model.
- HTTP date formatting and parsing are not modelled. Request `Last-Modified` values arrive already parsed, as milliseconds or as unparseable. Response `Last-Modified` holds the value passed to `new Date`. The one-second precision of the formatted header means no header round-trip is claimed.
- The startup seeding of twenty fixture documents and `server.listen` are bootstrap side effects. They are not modelled; `Routes.Initial` takes any collection.
- Macro values are JSON numbers modelled as exact reals. Only their truthiness and equality matter.

=== FILE: aliments.dfy ===
/** The food item ("aliment") documents the service stores and exchanges. */
module Aliments {
  import opened Wrappers
  import opened JsValues

  /** The store's internal document identifier (`_id`). */
  type Id = nat

  /** An aliment document as a request body carries it, or as the store holds
      it minus its `_id`. Every property may be absent. */
  datatype Aliment = Aliment(
    name: Field,
    calories: Field,
    fats: Field,
    proteins: Field,
    carbs: Field,
    version: Field,
    updated: Field)

  /** A stored document: the body it was written with plus the store's id. */
  datatype Record = Record(id: Id, doc: Aliment)

  /** The creation guard: all five user fields present and truthy, so a
      macro of `0` or an empty name counts as missing. */
  predicate HasAllFields(a: Aliment) {
    && FieldTruthy(a.name)
    && FieldTruthy(a.calories)
    && FieldTruthy(a.fats)
    && FieldTruthy(a.proteins)
    && FieldTruthy(a.carbs)
  }

  /** Whether a stored value matches the string `n` in a store query: a
      string matches by strict equality, an array when one of its elements
      matches (at any depth), and nothing else matches. */
  predicate QueryMatches(v: JsValue, n: string)
    decreases v
  {
    match v
    case Str(t) => t == n
    case Arr(es, _) => exists i :: 0 <= i < |es| && QueryMatches(es[i], n)
    case _ => false
  }

  /** The store's query `{name: n}` for a string `n`. */
  predicate NamedAs(r: Record, n: string) {
    r.doc.name.Some? && QueryMatches(r.doc.name.value, n)
  }

  /** The body as creation rewrites it: version 1 and update time `now`, every
      other property kept. */
  function Stamped(a: Aliment, now: int): (r: Aliment)
    ensures HasAllFields(r) <==> HasAllFields(a)
  {
    a.(version := Some(Num(1.0)), updated := Some(Num(now as real)))
  }
}

=== FILE: http.dfy ===
/** What a handler leaves in the Koa response, and the realtime events it
    emits. */
module Http {
  import opened Wrappers
  import opened JsValues
  import opened Aliments

  const OK := 200
  const CREATED := 201
  const NO_CONTENT := 204
  const NOT_MODIFIED := 304
  const BAD_REQUEST := 400
  const NOT_FOUND := 404
  const METHOD_NOT_ALLOWED := 405

  /** The single entry of an issue body: `{error: msg}` or `{warning: msg}`. */
  datatype IssueKind = Error | Warning

  /** The response body. `Echo` is a request body sent back as given. */
  datatype Payload =
    | Empty
    | Issue(kind: IssueKind, message: string)
    | Item(rec: Record)
    | Items(recs: seq<Record>)
    | Echo(doc: Aliment)

  /** Status, body and the two caching headers. A header is `None` when the
      handler does not set it; otherwise it holds the JavaScript value the
      handler put there (`ETag`), or passed to `new Date` (`Last-Modified`),
      which is `None` itself when that value is `undefined`. */
  datatype Response = Response(
    status: int,
    body: Payload,
    etag: Option<Field>,
    lastModified: Option<Field>)

  /** The socket.io events; each carries its JSON payload. */
  datatype Event =
    | AlimentCreated(rec: Record)
    | AlimentUpdated(doc: Aliment)
    | AlimentDeleted(id: Option<Id>)

  /** `setIssueRes`: an issue body with one entry, no caching headers. */
  function SetIssueRes(status: int, kind: IssueKind, message: string): Response {
    Response(status, Issue(kind, message), None, None)
  }

  /** The aliment object a payload carries, for headers taken from it. */
  function PayloadDoc(body: Payload): Aliment
    requires body.Item? || body.Echo?
  {
    if body.Item? then body.rec.doc else body.doc
  }

  /** `setAlimentRes`: the aliment as body, `ETag` its version and
      `Last-Modified` its update time, whatever those properties hold. */
  function SetAlimentRes(status: int, body: Payload): Response
    requires body.Item? || body.Echo?
  {
    var doc := PayloadDoc(body);
    Response(status, body, Some(doc.version), Some(doc.updated))
  }
}

=== FILE: js_values.dfy ===
/** The JavaScript values a parsed JSON request body can hold, and the two
    pieces of JavaScript semantics the route handlers depend on: truthiness
    (`if (x)`, `x && y`, `!x`) and loose inequality (`x != "name"`). */
module JsValues {
  import opened Wrappers

  /** A JSON value after body parsing. An array keeps its elements, which the
      store's queries look into, together with the string its primitive
      conversion yields (its elements joined by commas), which loose equality
      compares. An object matters to the handlers only through its truthiness
      and its primitive string, which is `"[object Object]"` for an object
      without an own `toString` property. */
  datatype JsValue =
    | Null
    | Bool(b: bool)
    | Num(x: real)
    | Str(s: string)
    | Arr(elems: seq<JsValue>, primitive: string)
    | Obj

  /** A property read from a body object: `None` is `undefined`, i.e. the key
      is absent. */
  type Field = Option<JsValue>

  /** JavaScript truthiness of a JSON value: `null`, `false`, `0` (and `-0`)
      and `""` are falsy, everything else is truthy. */
  predicate Truthy(v: JsValue) {
    match v
    case Null => false
    case Bool(b) => b
    case Num(x) => x != 0.0
    case Str(s) => s != ""
    case Arr(_, _) => true
    case Obj => true
  }

  /** Truthiness of a property read: `undefined` is falsy. */
  predicate FieldTruthy(f: Field) {
    f.Some? && Truthy(f.value)
  }

  predicate IsDigit(c: char) {
    '0' <= c <= '9'
  }

  predicate AllDigits(s: string) {
    forall i :: 0 <= i < |s| ==> IsDigit(s[i])
  }

  /** The value of a string of decimal digits, most significant first. */
  function DigitsValue(s: string): nat
    requires AllDigits(s)
    decreases |s|
  {
    if |s| == 0 then 0
    else DigitsValue(s[..|s| - 1]) * 10 + (s[|s| - 1] as int - '0' as int)
  }

  /** JavaScript's conversion of a string to a number, for the spellings the
      model covers: the empty string is 0 and a run of decimal digits is its
      value. Every other string yields `None`, standing for `NaN`. */
  function StringToNumber(s: string): (r: Option<real>)
    ensures r.Some? <==> AllDigits(s)
    ensures s == "" ==> r == Some(0.0)
  {
    if AllDigits(s) then Some(DigitsValue(s) as real) else None
  }

  /** JavaScript's loose equality `v == s` between a body value and a string
      (a route parameter). Strings compare exactly; numbers and booleans
      compare numerically after converting `s` (so `5 == "5"` and
      `true == "1"`); `null` equals no string; arrays and objects compare
      through their primitive string. */
  predicate LooseEqualsString(v: JsValue, s: string) {
    match v
    case Null => false
    case Bool(b) => StringToNumber(s) == Some(if b then 1.0 else 0.0)
    case Num(x) => StringToNumber(s) == Some(x)
    case Str(t) => t == s
    case Arr(_, p) => p == s
    case Obj => s == "[object Object]"
  }

  /** The decimal digits of a natural number, most significant first, with
      no leading zero. */
  function DecimalString(n: nat): (r: string)
    ensures |r| > 0 && AllDigits(r)
    decreases n
  {
    var d := [('0' as int + n % 10) as char];
    if n < 10 then d else DecimalString(n / 10) + d
  }

  /** Reading back the decimal spelling of `n` gives `n`. */
  lemma {:induction false} DecimalStringRoundTrip(n: nat)
    ensures DigitsValue(DecimalString(n)) == n
    decreases n
  {
    var s := DecimalString(n);
    var d := [('0' as int + n % 10) as char];
    if n < 10 {
      assert s == d;
      assert s[..|s| - 1] == [];
    } else {
      DecimalStringRoundTrip(n / 10);
      assert s == DecimalString(n / 10) + d;
      assert s[..|s| - 1] == DecimalString(n / 10);
    }
  }

  /** A numeric body value loosely equals the path segment that spells it in
      decimal, so `{name: 7}` passes a `name != "7"` check. */
  lemma NumberMatchesItsSpelling(n: nat)
    ensures LooseEqualsString(Num(n as real), DecimalString(n))
    ensures LooseEqualsString(Num(n as real), "0" + DecimalString(n))
  {
    DecimalStringRoundTrip(n);
    var s := DecimalString(n);
    var z := "0" + s;
    assert z[..|z| - 1] == "0" + s[..|s| - 1];
    LeadingZeroValue(s);
  }

  /** A leading zero does not change the value of a digit string. */
  lemma {:induction false} LeadingZeroValue(s: string)
    requires AllDigits(s)
    ensures AllDigits("0" + s) && DigitsValue("0" + s) == DigitsValue(s)
    decreases |s|
  {
    var z := "0" + s;
    if |s| > 0 {
      assert z[..|z| - 1] == "0" + s[..|s| - 1];
      LeadingZeroValue(s[..|s| - 1]);
    } else {
      assert z[..|z| - 1] == [];
    }
  }
}

=== FILE: properties.dfy ===
/** Properties relating several requests: what a later GET sees after a
    POST, PUT or DELETE, and how the listing's cache marker behaves. */
module RouteProperties {
  import opened Wrappers
  import opened JsValues
  import opened Aliments
  import opened Store
  import opened Http
  import opened Routes

  /** At startup the marker is unset, so no conditional listing is answered
      with 304; the first listing sets the marker to its time `now` (when
      that is not 0), after which a conditional listing is 304 exactly when
      the client's time is not earlier. */
  lemma InitialListing(items: seq<Record>, h: Option<HeaderDate>, now: int, t: int, later: int)
    requires now != 0
    ensures var first := ListAliments(Initial(items), h, now);
            && first.resp.status == OK
            && first.resp.body == Items(items)
            && first.next == State(items, Some(now))
            && (ListAliments(first.next, Some(At(t)), later).resp.status == NOT_MODIFIED <==> now <= t)
  {
  }

  /** A created aliment is what a later GET by its name returns, with
      version 1 and the creation time, provided no document had that name
      before. The name may be a string or an array holding it. */
  lemma PostThenGet(s: State, body: Aliment, now: int, at: nat, n: string)
    requires HasAllFields(body) && body.name.Some? && QueryMatches(body.name.value, n)
    requires forall j :: 0 <= j < |s.items| ==> !NamedAs(s.items[j], n)
    ensures var created := PostAliment(s, body, now, at);
            var fetched := GetAliment(created.next, n);
            && fetched.resp.status == OK
            && fetched.resp.body == created.resp.body
            && fetched.resp.body.rec.doc == Stamped(body, now)
            && fetched.resp.etag == Some(Some(Num(1.0)))
            && fetched.resp.lastModified == Some(Some(Num(now as real)))
  {
  }

  /** There is no duplicate-name check: POST of a name already stored adds a
      second document. GET by that name then returns the new document when
      it took a scan position no later than the first old match, and that
      old match otherwise. */
  lemma PostDuplicateName(s: State, body: Aliment, now: int, at: nat, n: string)
    requires HasAllFields(body) && body.name.Some? && QueryMatches(body.name.value, n)
    requires exists j :: 0 <= j < |s.items| && NamedAs(s.items[j], n)
    ensures var created := PostAliment(s, body, now, at);
            var fetched := GetAliment(created.next, n);
            var k := FirstNamed(s.items, n).value;
            && created.resp.status == CREATED
            && |created.next.items| == |s.items| + 1
            && fetched.resp.status == OK
            && fetched.resp.body.rec == if Slot(s.items, at) <= k then created.resp.body.rec else s.items[k]
  {
    var created := PostAliment(s, body, now, at);
    var items := created.next.items;
    var p := Slot(s.items, at);
    var k := FirstNamed(s.items, n).value;
    assert created.resp.body.rec == items[p];
    if p <= k {
      assert NamedAs(items[p], n);
      FirstNamedOfSharedPrefix(items, s.items, n, p);
    } else {
      assert items[..k + 1] == s.items[..k + 1] by {
        assert items[..p] == s.items[..p];
      }
      FirstNamedOfSharedPrefix(items, s.items, n, k);
    }
    assert FirstNamed(items, n) == Some(if p <= k then p else k);
  }

  /** If `k` is a match in `a` and `a` agrees with `b` before `k`, where `b` has
      no match, then `k` is the first match in `a`. */
  lemma FirstNamedOfSharedPrefix(a: seq<Record>, b: seq<Record>, n: string, k: nat)
    requires k < |a| && k <= |b| && a[..k] == b[..k] && NamedAs(a[k], n)
    requires forall j :: 0 <= j < k ==> !NamedAs(b[j], n)
    ensures FirstNamed(a, n) == Some(k)
  {
    assert forall j :: 0 <= j < k ==> a[j] == a[..k][j] == b[j];
  }

  /** After an accepted PUT whose body names the path as a string, GET by
      that name returns the stored document with exactly the body's fields:
      version and update time are whatever the body said. */
  lemma PutThenGet(s: State, name: string, body: Aliment, now: int, at: nat)
    requires name != "" && body.name == Some(Str(name))
    requires exists j :: 0 <= j < |s.items| && NamedAs(s.items[j], name)
    ensures var put := PutAliment(s, name, body, now, at);
            var k := FirstNamed(s.items, name).value;
            && put.resp.status == OK
            && GetAliment(put.next, name).resp ==
               Response(OK, Item(Record(s.items[k].id, body)), Some(body.version), Some(body.updated))
  {
  }

  /** Loose comparison lets a numeric body name through a PUT on the path that
      spells it, and the store then holds a number where the name was: when
      that was the only document with the name, GET by it now answers 404. */
  lemma PutNumericNameHidesRecord(s: State, n: nat, body: Aliment, now: int, at: nat, k: nat)
    requires n != 0 && body.name == Some(Num(n as real))
    requires k < |s.items| && NamedAs(s.items[k], DecimalString(n))
    requires forall j :: 0 <= j < |s.items| && j != k ==> !NamedAs(s.items[j], DecimalString(n))
    ensures var put := PutAliment(s, DecimalString(n), body, now, at);
            && put.resp.status == OK
            && GetAliment(put.next, DecimalString(n)).resp.status == NOT_FOUND
  {
    var path := DecimalString(n);
    NumberMatchesItsSpelling(n);
    assert PutAccepted(path, body);
    assert FirstNamed(s.items, path) == Some(k);
    var items := PutAliment(s, path, body, now, at).next.items;
    assert forall j :: 0 <= j < |items| ==> !NamedAs(items[j], path) by {
      forall j | 0 <= j < |items|
        ensures !NamedAs(items[j], path)
      {
        if j != k {
          assert items[j] == s.items[j];
        }
      }
    }
  }

  /** An unconditional listing is idempotent once the marker is set: a second
      one returns the same response and leaves the state as the first did. */
  lemma ListIsIdempotent(s: State, now: int, later: int)
    requires MarkerSet(s.marker) || now != 0
    ensures var first := ListAliments(s, None, now);
            var second := ListAliments(first.next, None, later);
            second.resp == first.resp && second.next == first.next
  {
  }

  /** A successful creation revalidates cached listings: with the marker at
      the creation time, a conditional listing is 304 exactly when the
      client's time is not earlier. */
  lemma PostThenConditionalList(s: State, body: Aliment, now: int, at: nat, t: int, later: int)
    requires HasAllFields(body) && now != 0
    ensures var created := PostAliment(s, body, now, at);
            ListAliments(created.next, Some(At(t)), later).resp.status == NOT_MODIFIED <==> now <= t
  {
  }

  /** DELETE removes nothing, yet moves the marker: every GET by name answers
      as before, while a conditional listing is 304 only for a client time
      not earlier than the deletion. */
  lemma DeleteThenRead(s: State, name: string, now: int, m: string, t: int, later: int)
    requires now != 0
    ensures var deleted := DeleteAliment(s, name, now);
            && GetAliment(deleted.next, m).resp == GetAliment(s, m).resp
            && (ListAliments(deleted.next, Some(At(t)), later).resp.status == NOT_MODIFIED <==> now <= t)
  {
  }

  /** PUT never creates and never touches the marker: whatever the body, a
      name no document held before is still held by none afterwards unless
      the body itself carries it. */
  lemma PutNeverCreates(s: State, name: string, body: Aliment, now: int, at: nat, m: string)
    requires forall j :: 0 <= j < |s.items| ==> !NamedAs(s.items[j], m)
    requires !(body.name.Some? && QueryMatches(body.name.value, m))
    ensures var put := PutAliment(s, name, body, now, at);
            && put.next.marker == s.marker
            && |put.next.items| == |s.items|
            && GetAliment(put.next, m).resp.status == NOT_FOUND
  {
  }
}

=== FILE: routes.dfy ===
/** The `/Aliment` route handlers as pure steps of a state machine. Each
    handler runs atomically over the store and the cache marker, given the
    clock reading `now` (`Date.now()`), and yields the response, the events
    emitted and the next state. */
module Routes {
  import opened Wrappers
  import opened JsValues
  import opened Aliments
  import opened Store
  import opened Http

  /** The aliment collection and `alimentsLastUpdate`, the process-wide time
      of the last change the collection listing reports (`None` is `null`). */
  datatype State = State(items: seq<Record>, marker: Option<int>)

  /** The server as it starts: the marker is `null`. */
  function Initial(items: seq<Record>): State {
    State(items, None)
  }

  /** A request `Last-Modified` header after date parsing: a time in
      milliseconds, or a string `new Date` cannot read (`NaN`). */
  datatype HeaderDate = Unparseable | At(ms: int)

  /** The five routes. `ListAll` carries the request `Last-Modified` header,
      `None` when it is missing or empty. */
  datatype Request =
    | ListAll(lastModified: Option<HeaderDate>)
    | GetOne(name: string)
    | Create(body: Aliment)
    | Update(name: string, body: Aliment)
    | Delete(name: string)

  datatype Outcome = Outcome(resp: Response, events: seq<Event>, next: State)

  /** JavaScript truthiness of the marker: `null` and `0` both read as unset. */
  predicate MarkerSet(m: Option<int>) {
    m.Some? && m.value != 0
  }

  /** The condition for answering the listing with 304: a header is sent,
      the marker is set, and the marker is no later than the header time. An
      unparseable header compares false. */
  predicate NotModified(h: Option<HeaderDate>, m: Option<int>) {
    && h.Some?
    && MarkerSet(m)
    && h.value.At?
    && m.value <= h.value.ms
  }

  /** The marker as an instant for `new Date(...)`. */
  function MarkerValue(m: Option<int>): Field {
    if m.Some? then Some(Num(m.value as real)) else Some(Null)
  }

  /** GET /Aliment: a 304 when the client's copy is current; otherwise every
      document, with the marker set to `now` if it was unset and sent as
      `Last-Modified`. */
  function ListAliments(s: State, h: Option<HeaderDate>, now: int): (o: Outcome)
    ensures o.resp.status == NOT_MODIFIED <==> NotModified(h, s.marker)
    ensures NotModified(h, s.marker) ==>
              o.resp.body == Empty && o.resp.lastModified.None? && o.next == s
    ensures !NotModified(h, s.marker) ==>
              && o.resp.status == OK
              && o.resp.body == Items(s.items)
              && o.next.items == s.items
              && (MarkerSet(s.marker) ==> o.next.marker == s.marker)
              && (!MarkerSet(s.marker) ==> o.next.marker == Some(now))
              && o.resp.lastModified == Some(Some(Num(o.next.marker.value as real)))
    ensures o.events == [] && o.resp.etag.None?
  {
    if NotModified(h, s.marker) then
      Outcome(Response(NOT_MODIFIED, Empty, None, None), [], s)
    else
      var marker := if MarkerSet(s.marker) then s.marker else Some(now);
      Outcome(Response(OK, Items(s.items), None, Some(MarkerValue(marker))), [], s.(marker := marker))
  }

  /** GET /Aliment/:name: the first document named `name`, with its version
      and update time as headers, or a 404 warning. Nothing changes. */
  function GetAliment(s: State, name: string): (o: Outcome)
    ensures o.next == s && o.events == []
    ensures o.resp.status == NOT_FOUND <==> forall j :: 0 <= j < |s.items| ==> !NamedAs(s.items[j], name)
    ensures o.resp.status == NOT_FOUND ==> o.resp.body == Issue(Warning, "Aliment not found")
    ensures o.resp.status != NOT_FOUND ==>
              && o.resp.status == OK
              && o.resp.body.Item?
              && o.resp.body.rec in s.items
              && NamedAs(o.resp.body.rec, name)
              && o.resp.etag == Some(o.resp.body.rec.doc.version)
              && o.resp.lastModified == Some(o.resp.body.rec.doc.updated)
  {
    match FindOneByName(s.items, name)
    case Some(rec) => Outcome(SetAlimentRes(OK, Item(rec)), [], s)
    case None => Outcome(SetIssueRes(NOT_FOUND, Warning, "Aliment not found"), [], s)
  }

  /** `createAliment`: stamps version 1 and `now`, inserts (at scan position
      `Slot(s.items, at)`), moves the marker to `now`, answers 201 with the
      stored document and announces it. */
  function CreateAliment(s: State, body: Aliment, now: int, at: nat): (o: Outcome)
    ensures var p := Slot(s.items, at);
            && |o.next.items| == |s.items| + 1
            && o.next.items[..p] == s.items[..p]
            && o.next.items[p + 1..] == s.items[p..]
    ensures var rec := o.next.items[Slot(s.items, at)];
            && rec.doc == Stamped(body, now)
            && rec.id !in Ids(s.items)
            && o.resp.status == CREATED
            && o.resp.body == Item(rec)
            && o.resp.etag == Some(Some(Num(1.0)))
            && o.resp.lastModified == Some(Some(Num(now as real)))
            && o.events == [AlimentCreated(rec)]
    ensures o.next.marker == Some(now)
  {
    var items := Insert(s.items, Stamped(body, now), at);
    var rec := items[Slot(s.items, at)];
    Outcome(SetAlimentRes(CREATED, Item(rec)), [AlimentCreated(rec)], State(items, Some(now)))
  }

  /** POST /Aliment: creates when every field is truthy, else a 400 issue. */
  function PostAliment(s: State, body: Aliment, now: int, at: nat): (o: Outcome)
    ensures o.resp.status == BAD_REQUEST <==> !HasAllFields(body)
    ensures !HasAllFields(body) ==>
              o.resp.body == Issue(Error, "Some field is missing") && o.next == s && o.events == []
    ensures HasAllFields(body) ==> o.resp.status == CREATED && o == CreateAliment(s, body, now, at)
  {
    if HasAllFields(body) then CreateAliment(s, body, now, at)
    else Outcome(SetIssueRes(BAD_REQUEST, Error, "Some field is missing"), [], s)
  }

  /** The guard that lets a PUT through to the store: a truthy body name that
      is loosely equal to the path name. */
  predicate PutAccepted(name: string, body: Aliment) {
    FieldTruthy(body.name) && LooseEqualsString(body.name.value, name)
  }

  /** PUT /Aliment/:name. Rejects a truthy body name that differs from the
      path, then a falsy one; the create branch behind them is therefore never
      taken. An accepted body replaces the first document named `name` and is
      echoed back; when there is none, 405. */
  function PutAliment(s: State, name: string, body: Aliment, now: int, at: nat): (o: Outcome)
    ensures o.resp.status == BAD_REQUEST <==> !PutAccepted(name, body)
    ensures FieldTruthy(body.name) && !LooseEqualsString(body.name.value, name) ==>
              o.resp.body == Issue(Error, "Param name and body name should be the same")
    ensures !FieldTruthy(body.name) ==> o.resp.body == Issue(Error, "Name is missing")
    ensures o.resp.status != OK ==> o.next == s && o.events == []
    ensures o.resp.status != CREATED && o.next.marker == s.marker
    ensures |o.next.items| == |s.items|
    ensures forall i :: 0 <= i < |s.items| ==> o.next.items[i].id == s.items[i].id
    ensures PutAccepted(name, body) ==>
              match FirstNamed(s.items, name)
              case None =>
                && o.resp.status == METHOD_NOT_ALLOWED
                && o.resp.body == Issue(Error, "Aliment no longer exists")
              case Some(k) =>
                && o.resp.status == OK
                && o.resp.body == Echo(body)
                && o.resp.etag == Some(body.version)
                && o.resp.lastModified == Some(body.updated)
                && o.next.items[k] == Record(s.items[k].id, body)
                && (forall i :: 0 <= i < |s.items| && i != k ==> o.next.items[i] == s.items[i])
                && o.events == [AlimentUpdated(body)]
  {
    if FieldTruthy(body.name) && !LooseEqualsString(body.name.value, name) then
      Outcome(SetIssueRes(BAD_REQUEST, Error, "Param name and body name should be the same"), [], s)
    else if !FieldTruthy(body.name) then
      Outcome(SetIssueRes(BAD_REQUEST, Error, "Name is missing"), [], s)
    else if !FieldTruthy(body.name) then
      CreateAliment(s, body, now, at)
    else
      match FindOneByName(s.items, name)
      case Some(_) =>
        Outcome(SetAlimentRes(OK, Echo(body)), [AlimentUpdated(body)],
                s.(items := ReplaceFirstNamed(s.items, name, body)))
      case None =>
        Outcome(SetIssueRes(METHOD_NOT_ALLOWED, Error, "Aliment no longer exists"), [], s)
  }

  /** The id the DELETE route reads: `ctx.params.id`, which the `:name` route
      never populates, so it is always `undefined`. */
  function DeleteRouteId(name: string): Option<Id> {
    None
  }

  /** DELETE /Aliment/:name: removes by the route's id (so nothing), announces
      the deletion, moves the marker to `now` and answers 204 regardless. */
  function DeleteAliment(s: State, name: string, now: int): (o: Outcome)
    ensures o.resp == Response(NO_CONTENT, Empty, None, None)
    ensures o.next.items == s.items
    ensures o.next.marker == Some(now)
    ensures o.events == [AlimentDeleted(None)]
  {
    var id := DeleteRouteId(name);
    Outcome(Response(NO_CONTENT, Empty, None, None), [AlimentDeleted(id)],
            State(RemoveById(s.items, id), Some(now)))
  }

  /** The statuses the `/Aliment` routes answer with. */
  predicate KnownStatus(status: int) {
    status in {OK, CREATED, NO_CONTENT, NOT_MODIFIED, BAD_REQUEST, NOT_FOUND, METHOD_NOT_ALLOWED}
  }

  /** The statuses that report a request the server declined to act on. */
  predicate Declined(status: int) {
    status in {NOT_MODIFIED, BAD_REQUEST, NOT_FOUND, METHOD_NOT_ALLOWED}
  }

  /** The realtime events that go with a response: a creation announces the
      stored document, an update (the only response echoing the request body)
      announces that body, a deletion announces the (absent) id, and every
      other response announces nothing. */
  function AnnouncedBy(r: Response): seq<Event> {
    if r.status == CREATED && r.body.Item? then [AlimentCreated(r.body.rec)]
    else if r.status == NO_CONTENT then [AlimentDeleted(None)]
    else if r.body.Echo? then [AlimentUpdated(r.body.doc)]
    else []
  }

  /** The router: dispatches a request to its handler; `at` is the scan
      position a created document would take. Whatever the request, a
      declined one changes nothing and emits nothing, only a 201 grows the
      collection (by one), no id in use is dropped, ids stay unique, and the
      events emitted are exactly those the response announces. */
  function Handle(s: State, req: Request, now: int, at: nat): (o: Outcome)
    ensures KnownStatus(o.resp.status)
    ensures Declined(o.resp.status) ==> o.next == s && o.events == []
    ensures o.resp.status == CREATED <==> req.Create? && HasAllFields(req.body)
    ensures |o.next.items| == |s.items| + (if o.resp.status == CREATED then 1 else 0)
    ensures Ids(s.items) <= Ids(o.next.items)
    ensures UniqueIds(s.items) ==> UniqueIds(o.next.items)
    ensures o.events == AnnouncedBy(o.resp)
  {
    match req
    case ListAll(h) => ListAliments(s, h, now)
    case GetOne(name) => GetAliment(s, name)
    case Create(body) => PostAliment(s, body, now, at)
    case Update(name, body) => PutAliment(s, name, body, now, at)
    case Delete(name) => DeleteAliment(s, name, now)
  }
}

=== FILE: server.dfy ===
/** The server handling a sequence of requests one after another, each as one
    atomic step of the route state machine. */
module Server {
  import opened Store
  import opened Http
  import opened Routes

  /** How many responses in `rs` are 201 Created. */
  function CreatedCount(rs: seq<Response>): nat {
    if |rs| == 0 then 0
    else CreatedCount(rs[..|rs| - 1]) + (if rs[|rs| - 1].status == CREATED then 1 else 0)
  }

  /** The events the responses `rs` announce, in response order. */
  function AllAnnounced(rs: seq<Response>): seq<Event> {
    if |rs| == 0 then []
    else AllAnnounced(rs[..|rs| - 1]) + AnnouncedBy(rs[|rs| - 1])
  }

  /** Handles `reqs[i]` at clock reading `clock[i]`, a creation taking scan
      position `slots[i]`, in order. Only creations grow the collection, no
      id in use at the start is dropped, ids stay unique, and the events
      emitted are, in order, those the successive responses announce. */
  method Serve(s: State, reqs: seq<Request>, clock: seq<int>, slots: seq<nat>)
    returns (final: State, responses: seq<Response>, events: seq<Event>)
    requires |clock| == |reqs| && |slots| == |reqs|
    requires UniqueIds(s.items)
    ensures |responses| == |reqs|
    ensures forall i :: 0 <= i < |responses| ==> KnownStatus(responses[i].status)
    ensures |final.items| == |s.items| + CreatedCount(responses)
    ensures Ids(s.items) <= Ids(final.items)
    ensures UniqueIds(final.items)
    ensures events == AllAnnounced(responses)
  {
    final := s;
    responses := [];
    events := [];
    var n := 0;
    while n < |reqs|
      invariant 0 <= n <= |reqs|
      invariant |responses| == n
      invariant forall i :: 0 <= i < n ==> KnownStatus(responses[i].status)
      invariant |final.items| == |s.items| + CreatedCount(responses)
      invariant Ids(s.items) <= Ids(final.items)
      invariant UniqueIds(final.items)
      invariant events == AllAnnounced(responses)
    {
      var o := Handle(final, reqs[n], clock[n], slots[n]);
      assert (responses + [o.resp])[..n] == responses;
      responses := responses + [o.resp];
      events := events + o.events;
      final := o.next;
      n := n + 1;
    }
  }
}

=== FILE: store.dfy ===
/** The aliment collection seen through the five store calls the handlers
    make: find all, find one by name, insert with a fresh id, replace the
    first document matching a name, and remove by id. The collection is a
    sequence in the store's iteration order. */
module Store {
  import opened Wrappers
  import opened Aliments

  /** No two stored documents share an `_id`. */
  predicate UniqueIds(items: seq<Record>) {
    forall i, j :: 0 <= i < j < |items| ==> items[i].id != items[j].id
  }

  /** Position of the first document matching `{name: n}`, if any. */
  function FirstNamed(items: seq<Record>, n: string): (k: Option<nat>)
    ensures k.Some? ==> k.value < |items| && NamedAs(items[k.value], n)
    ensures k.Some? ==> forall j :: 0 <= j < k.value ==> !NamedAs(items[j], n)
    ensures k.None? <==> forall j :: 0 <= j < |items| ==> !NamedAs(items[j], n)
    decreases |items|
  {
    if |items| == 0 then None
    else if NamedAs(items[0], n) then Some(0)
    else
      match FirstNamed(items[1..], n)
      case None => None
      case Some(k) => Some(k + 1)
  }

  /** `findOne({name: n})`: the first matching document, or nothing. */
  function FindOneByName(items: seq<Record>, n: string): (r: Option<Record>)
    ensures r.None? <==> forall j :: 0 <= j < |items| ==> !NamedAs(items[j], n)
    ensures r.Some? ==> r.value in items && NamedAs(r.value, n)
  {
    match FirstNamed(items, n)
    case None => None
    case Some(k) => Some(items[k])
  }

  /** An id larger than every id in use. */
  function FreshId(items: seq<Record>): (r: Id)
    ensures forall i :: 0 <= i < |items| ==> items[i].id < r
    decreases |items|
  {
    if |items| == 0 then 0
    else
      var rest := FreshId(items[1..]);
      if items[0].id < rest then rest else items[0].id + 1
  }

  /** The ids in use. */
  function Ids(items: seq<Record>): set<Id> {
    set i | 0 <= i < |items| :: items[i].id
  }

  /** The scan position a new document takes. The store scans its documents
      in the order of their randomly generated `_id`, so a new document may
      land anywhere; `at` stands for that choice, clamped to the end. */
  function Slot(items: seq<Record>, at: nat): (p: nat)
    ensures p <= |items|
    ensures at <= |items| ==> p == at
  {
    if at <= |items| then at else |items|
  }

  /** `insert(doc)`: adds the document under a fresh id at scan position
      `Slot(items, at)`; the others keep their relative order. There is no
      check on the name. */
  function Insert(items: seq<Record>, doc: Aliment, at: nat): (r: seq<Record>)
    ensures var p := Slot(items, at);
            && |r| == |items| + 1
            && r[..p] == items[..p]
            && r[p + 1..] == items[p..]
            && r[p].doc == doc
            && r[p].id !in Ids(items)
    ensures Ids(r) == Ids(items) + {r[Slot(items, at)].id}
    ensures UniqueIds(items) ==> UniqueIds(r)
  {
    var p := Slot(items, at);
    var r := items[..p] + [Record(FreshId(items), doc)] + items[p..];
    assert forall i :: 0 <= i < |r| ==> r[i] == (if i < p then items[i] else if i == p then r[p] else items[i - 1]);
    assert Ids(r) == Ids(items) + {r[p].id} by {
      forall x | x in Ids(items)
        ensures x in Ids(r)
      {
        var i :| 0 <= i < |items| && items[i].id == x;
        if i < p { assert r[i] == items[i]; } else { assert r[i + 1] == items[i]; }
      }
    }
    r
  }

  /** `update({name: n}, doc)` with a plain (modifier-free) document: the first
      matching document is replaced wholesale by `doc`, keeping only its id;
      nothing happens when none matches. */
  function ReplaceFirstNamed(items: seq<Record>, n: string, doc: Aliment): (r: seq<Record>)
    ensures |r| == |items|
    ensures forall i :: 0 <= i < |items| ==> r[i].id == items[i].id
    ensures FirstNamed(items, n).None? ==> r == items
    ensures FirstNamed(items, n).Some? ==>
              var k := FirstNamed(items, n).value;
              r[k].doc == doc && forall i :: 0 <= i < |items| && i != k ==> r[i] == items[i]
    ensures Ids(r) == Ids(items)
    ensures UniqueIds(items) ==> UniqueIds(r)
  {
    match FirstNamed(items, n)
    case None => items
    case Some(k) => items[k := Record(items[k].id, doc)]
  }

  /** `remove({_id: id})`: drops the documents whose id is `id`. An absent id
      (`undefined`) matches no document. */
  function RemoveById(items: seq<Record>, id: Option<Id>): (r: seq<Record>)
    ensures forall x :: x in r <==> x in items && Some(x.id) != id
    ensures |r| <= |items|
    ensures id.None? ==> r == items
    decreases |items|
  {
    if |items| == 0 then []
    else if Some(items[0].id) == id then RemoveById(items[1..], id)
    else [items[0]] + RemoveById(items[1..], id)
  }
}

=== FILE: wrappers.dfy ===
/** The optional-value datatype used throughout the model: `None` stands for
    JavaScript's `null`/`undefined`, `Some(v)` for a present value. */
module Wrappers {

  datatype Option<+T> = None | Some(value: T)
}
